=== FILE: README.md ===
# CT lung-mask region and shape logic, modelled in Dafny

This project models the pure region and shape steps of the CT lung
segmentation post-processing in `CTLungSeg/segmentation.py`. A volume is a
stack of 8-bit slices (`seq<seq<seq<bv8>>>`).

- **Gap reconstruction** (`reconstruct_gg_areas`). Two copies of the mask are
  swept along the slice axis. The forward sweep ORs each slice with the one
  before it. The backward sweep ORs each slice with the one after it. Each
  result slice is the AND of the two sweeps.
- **ROI extraction** (`find_ROI`). The background row is dropped from a stats
  table. The remaining rows are reduced to one bounding box. An empty reduction
  gives zeros, and the result is cast to int16.
- **Bit-plane recomposition** (`bit_plane_slices`). Each voxel becomes the sum
  of three selected bit planes, each weighted by `2^(b-1)`. The sum is cast
  back to 8 bits.
- **Spot removal** (`remove_spots`). Regions whose AREA is below a threshold
  are erased. The survivors become 1.
- **Top-N region selection** (`select_greater_connected_regions`). Areas are
  sorted in descending order. For each of the first `n_reg` sorted areas, the
  table is queried for the regions with that AREA, and the grid is compared
  with the ids found, which marks them 255 when the query finds a single id.
  Everything else becomes 0. A slice
  with fewer than `n_reg` regions is cleared.

The connected-component analyzer is external to this model, so its output is
taken as input. Each slice's analysis is `SliceAnalysis(labels, stats)`. The
labels are a grid of `nat`. The stats table is a `seq<Stats>` in which row `j`
describes region `j` and row 0 is the background. `Regions.Consistent` states
the analyzer's contract: a background row exists, every label has a row, and
every AREA equals the pixel count of its label.

Integer widths are written out:

- The `uint8` casts keep sums modulo 256, so sums and weights are computed
  in `bv8`.
- The final `int16` cast of the ROI is an explicit two's-complement wrap,
  `Roi.Int16`.
- The comparison of a label with `np.uint8(id)` wraps the id modulo 256
  (`RegionSelection.Mark`).

Behaviour worth noting:

- `bit_plane_slices` reshapes its weights to exactly three entries. Any other
  number of positions fails (`BitPlanes.SingleBitFails`). An empty selection
  fails earlier: its position array is a float array, which cannot index the
  planes (`BitPlanes.EmptyBitsFailIndexing`).
- Positions 9..16 are legal negative plane indices. Their weights are
  multiples of 256, so they contribute nothing (`BitPlanes.HighPositionsVanish`).
- A repeated position is summed twice and wraps (`BitPlanes.RepeatedBitWraps`).
- The code does not validate `n_reg` or `area`:
  - an `n_reg` of zero or less selects no area, so only a region whose label
    is 255 survives;
  - an `area` of zero or less erases nothing.
- When two regions share a selected area, the query at line 90 returns both
  ids. Line 91 then compares the label grid with that array of ids. NumPy
  broadcasts the array against the grid's columns instead of testing
  membership, so such a tie does not select both regions (see "## Findings"),
  unless the number of ids equals the grid width (see "## Left out").
  `RegionSelection.SelectSliceAsWritten` models this loop. `RegionSelection.SelectSlice`
  is the membership reading, which marks every region of a selected area.
  Without a shared selected area the two agree.
- Selection compares labels with ids wrapped to 8 bits, then clears every
  value other than 255. A region whose label is 255 therefore survives whatever
  its area. An id of 256 or more marks the region whose label is that id
  modulo 256. `RegionSelection.SelectSlice` states this rule.
  `RegionSelection.KeptIffAmongLargest` gives the clean rule for tables of at
  most 255 rows.

## Model

| member | source | states |
|---|---|---|
| GapReconstruction.ReconstructGgAreas | CTLungSeg/segmentation.py:99-123 | three-buffer algorithm: the result has the input's slice count and slice shape and equals the merged sweeps; bit j of pixel (y, x) on slice i is set iff it is set on some slice at or before i and on some slice at or after i |
| GapReconstruction.SweepForward | CTLungSeg/segmentation.py:111-116 | after the forward loop over a copy, slice k holds the OR of input slices 0..k |
| GapReconstruction.SweepBackward | CTLungSeg/segmentation.py:118-119 | after the backward loop over a second copy, slice k holds the OR of input slices k..n-1 |
| GapReconstruction.Reconstruct | CTLungSeg/segmentation.py:113-123 | the merged volume has one slice per input slice, every slice has the shape of the first input slice, and the stack stays conformant, so the bitwise AND of the sweeps is defined everywhere |
| GapReconstruction.PrefixOrBits | CTLungSeg/segmentation.py:115-116 | a bit is set in forward slice i iff some input slice at or before i sets it |
| GapReconstruction.SuffixOrBits | CTLungSeg/segmentation.py:118-119 | a bit is set in backward slice i iff some input slice at or after i sets it |
| GapReconstruction.ReconstructBits | CTLungSeg/segmentation.py:121-122 | the AND of the two sweeps sets a bit on slice i iff it is set both at or before i and at or after i |
| GapReconstruction.ReconstructBitsEverywhere | CTLungSeg/segmentation.py:115-123 | the same characterisation, for every slice, pixel and bit at once |
| GapReconstruction.FillsGap | CTLungSeg/segmentation.py:115-123 | a bit set on slices k and l is set on every slice between them; a slice missing between k and k + 2 is filled |
| GapReconstruction.NoSpreadFromSingleSlice | CTLungSeg/segmentation.py:115-123 | a bit set on exactly one slice k stays on slice k only |
| GapReconstruction.Extensive | CTLungSeg/segmentation.py:115-123 | every bit of every input voxel is still set in the result |
| GapReconstruction.ReconstructIsGapless | CTLungSeg/segmentation.py:115-123 | in the result, the slices carrying a bit of a pixel form an interval along z |
| GapReconstruction.GaplessVoxel | CTLungSeg/segmentation.py:115-123 | a voxel of a mask without gaps keeps its value |
| GapReconstruction.GaplessIsFixed | CTLungSeg/segmentation.py:115-123 | a mask without gaps is returned unchanged |
| GapReconstruction.Idempotent | CTLungSeg/segmentation.py:115-123 | reconstructing the reconstruction changes nothing |
| Roi.FindRoi | CTLungSeg/segmentation.py:128-143 | fails iff the table has no background row; with no foreground rows the result is all zeros; every corner is an int16; when the box coordinates fit in int16, every foreground box lies inside the corners and each corner is attained by some foreground row |
| Roi.Box | CTLungSeg/segmentation.py:142 | the column minima and maxima of a non-empty list of regions form a box that encloses every region, and each corner is one of the regions' edges |
| Roi.CastCorners | CTLungSeg/segmentation.py:143 | every cast corner is an int16, and corners already in range are unchanged |
| Roi.BoxSurvivesCast | CTLungSeg/segmentation.py:141-143 | when every region's edges fit in int16, the cast leaves the bounding box unchanged |
| Roi.Int16 | CTLungSeg/segmentation.py:143 | the int16 cast gives a value in the int16 range, congruent to its input modulo 2^16, and leaves in-range values unchanged |
| Roi.SingleRegionExample | CTLungSeg/segmentation.py:141-143 | one region {LEFT 2, TOP 3, WIDTH 4, HEIGHT 5} gives [2, 3, 6, 8] |
| BitPlanes.BitPlaneSlices | CTLungSeg/segmentation.py:146-168 | succeeds iff exactly three positions are given, all in 1..16; it reports the indexing error iff the selection is empty or some position is outside 1..16, and the reshape error otherwise; on success it keeps the stack's shape and recomposes every voxel |
| BitPlanes.EmptyBitsFailIndexing | CTLungSeg/segmentation.py:165-166 | an empty selection fails at the plane indexing, not at the reshape |
| BitPlanes.Recompose | CTLungSeg/segmentation.py:166-168 | the 8-bit weighted sum of the selected planes is 0 when the voxel has none of the selected low bits set, and when every position lies in 9..16 |
| BitPlanes.TermIsMaskedBit | CTLungSeg/segmentation.py:164-167 | for b in 1..8, plane 8 - b weighted by 2^(b-1) is bit b - 1 of the voxel, left in place |
| BitPlanes.PowerIsBit | CTLungSeg/segmentation.py:167 | below 8, the weight 2^k modulo 256 is the single bit k |
| BitPlanes.PowerVanishes | CTLungSeg/segmentation.py:167-168 | from 8 on, the weight 2^k is 0 modulo 256 |
| BitPlanes.HighPositionsVanish | CTLungSeg/segmentation.py:166-168 | positions 9..16 select a plane through a negative index, but contribute 0 after the 8-bit cast |
| BitPlanes.RecomposeIsMask | CTLungSeg/segmentation.py:164-168 | with distinct positions in 1..8, the weighted sum of the selected planes equals v & mask |
| BitPlanes.SelectsBits | CTLungSeg/segmentation.py:164-168 | with distinct positions in 1..8, bit j of the output is set iff bit j of v is set and position j + 1 is selected, so the output never exceeds v |
| BitPlanes.DistinctBitsMaskEveryVoxel | CTLungSeg/segmentation.py:164-168 | with three distinct positions in 1..8 the call succeeds and every output voxel is v & mask, at most v |
| BitPlanes.SingleBitFails | CTLungSeg/segmentation.py:167 | a single position cannot be reshaped to three weights, so the call fails |
| BitPlanes.RepeatedBitWraps | CTLungSeg/segmentation.py:168 | positions (8, 8, 1) on 255 sum to 257, which the cast wraps to 1 |
| SpotRemoval.SmallRegions | CTLungSeg/segmentation.py:62 | the query lists exactly the rows whose AREA is below the threshold |
| SpotRemoval.Erase | CTLungSeg/segmentation.py:63 | erasing one id keeps the grid's shape, zeroes exactly the pixels carrying that id and keeps every other label |
| SpotRemoval.EraseAll | CTLungSeg/segmentation.py:61-63 | erasing the listed ids one after another zeroes exactly the pixels whose label is listed and keeps every other label |
| SpotRemoval.Binarize | CTLungSeg/segmentation.py:64-65 | the uint8 cast of `lab != 0` keeps the shape and is 1 exactly on non-zero labels, 0 elsewhere |
| SpotRemoval.RemoveSpotsSlice | CTLungSeg/segmentation.py:59-65 | the output is 0/1 with the label grid's shape; a pixel is 1 iff its label is non-zero and its region is not listed with AREA below the threshold |
| SpotRemoval.RemoveSpots | CTLungSeg/segmentation.py:44-65 | the stack keeps its slice count and applies the slice rule to every slice independently |
| SpotRemoval.SurvivorsAreLargeRegions | CTLungSeg/segmentation.py:59-65 | under the analyzer contract, a pixel survives iff it is foreground and its region has at least `area` pixels; the output foreground is a subset of the input foreground |
| SpotRemoval.NonPositiveThresholdKeepsForeground | CTLungSeg/segmentation.py:62-65 | with a threshold of zero or less, the output is the input foreground set to 1 |
| Sorting.SortDesc | CTLungSeg/segmentation.py:86 | the sorted areas are in descending order and are a permutation of the input |
| Sorting.SortKeepsCount | CTLungSeg/segmentation.py:86 | sorting does not change how many areas exceed any given value |
| Sorting.InPrefixIffRankBelow | CTLungSeg/segmentation.py:88-90 | in a descending sequence, a value occurs among the first n entries iff fewer than n entries exceed it |
| RegionSelection.RegionsWithArea | CTLungSeg/segmentation.py:90 | the query `AREA == a` on the table without its background row returns exactly the foreground ids with that area |
| RegionSelection.SelectedIds | CTLungSeg/segmentation.py:89-90 | across the loop, the queried ids are exactly the foreground ids whose AREA is one of the selected areas |
| RegionSelection.Mark | CTLungSeg/segmentation.py:91 | one comparison keeps the shape and sets to 255 exactly the pixels whose label equals the id wrapped to 8 bits; every other label is kept |
| RegionSelection.MarkAll | CTLungSeg/segmentation.py:89-91 | marking the listed ids in turn (membership reading): a pixel becomes 255 iff its label equals some listed id modulo 256; other pixels keep their label |
| RegionSelection.MarkAllAppend | CTLungSeg/segmentation.py:89-91 | marking two lists one after the other is marking their concatenation, so the per-query marks of the loop compose |
| RegionSelection.MarkQueries | CTLungSeg/segmentation.py:89-91 | the marking loop as written fails iff some queried area yields other than one id; when it succeeds, the grid equals the membership marking of all queried ids |
| RegionSelection.QueryNotSingle | CTLungSeg/segmentation.py:90 | for an area that some region carries, the query returns other than one id iff two distinct foreground regions carry that area |
| RegionSelection.MarkQueriesFailIffShared | CTLungSeg/segmentation.py:88-91 | over the first n_reg sorted areas, the loop as written fails iff two foreground regions share one of those areas |
| RegionSelection.KeepMarked | CTLungSeg/segmentation.py:92 | after marking, a pixel is 255 iff its label is 255 and 0 otherwise, with the grid's shape |
| RegionSelection.ClearAll | CTLungSeg/segmentation.py:94 | a slice with too few regions keeps its shape and becomes all 0 |
| RegionSelection.SelectSliceAsWritten | CTLungSeg/segmentation.py:84-95 | a slice as the code computes it: it fails iff there are enough regions and two of them share a selected area; otherwise its output equals `SelectSlice` |
| RegionSelection.TieFailsAsWritten | CTLungSeg/segmentation.py:89-91 | labels [[1, 0, 2]], two regions of AREA 1 kept apart by a background pixel, and n_reg = 1: the query finds ids [1, 2], and the loop as written fails |
| RegionSelection.TieExample | CTLungSeg/segmentation.py:83 | the example slice meets the analyzer's contract (a background row, every AREA the pixel count of its label) and its touching foreground pixels share a label, as a connected-component labelling requires |
| RegionSelection.TieKeptByMembership | CTLungSeg/segmentation.py:89-91 | on the same slice the membership reading outputs [[255, 0, 255]], keeping both tied regions |
| RegionSelection.TiedPairKept | CTLungSeg/segmentation.py:89-91 | any slice labelled [[1, 0, 2]] whose two regions have equal area gives [[255, 0, 255]] under the membership reading with n_reg = 1 |
| RegionSelection.AsWrittenKeptIffAmongLargest | CTLungSeg/segmentation.py:84-95 | when no selected area is shared and ids stay below 255, the code succeeds and keeps a pixel iff it is foreground and fewer than n_reg regions are larger than its own |
| RegionSelection.SelectSlice | CTLungSeg/segmentation.py:84-95 | membership reading of one slice: the output is 0/255 with the label grid's shape; fewer than n_reg foreground rows clear the slice; otherwise a pixel is 255 iff its label is 255 or equals, modulo 256, a foreground id whose AREA is among the first n_reg sorted areas |
| RegionSelection.SelectGreaterConnectedRegions | CTLungSeg/segmentation.py:68-96 | the stack keeps its slice count and applies the slice rule to every slice independently |
| RegionSelection.InTopAreasIffRankBelow | CTLungSeg/segmentation.py:86-90 | a region's area is among the first n_reg sorted areas iff fewer than n_reg foreground regions are strictly larger |
| RegionSelection.SmallIdHit | CTLungSeg/segmentation.py:91 | for ids below 256, the wrapped comparison hits exactly the region's own id |
| RegionSelection.KeptIffAmongLargest | CTLungSeg/segmentation.py:85-94 | membership reading, with at most 255 rows and at least n_reg foreground regions: a pixel is 255 iff it is foreground and fewer than n_reg regions are larger than its own, so regions of equal area share their fate |
| RegionSelection.LargestRegionKept | CTLungSeg/segmentation.py:88-91 | membership reading: a region of maximal area is kept whenever n_reg is at least 1 and the slice has enough regions |

## Left out

- `opening` and `closing` (lines 16-41) only chain the external `erode` and `dilate`, which are not part of this model.
- `imlabeling` (lines 171-190) wraps a floating-point KMeans fit. The fit is iterative and external, so no exact contract about it can be stated.
- The internals of `connected_components_wStats` and `gl2bit` are external. Their outputs are inputs: the analyzer output is constrained by `Regions.Consistent`, and `gl2bit` is modelled as plain bit extraction (plane k holds bit 7 - k).
- The mechanics of pandas and of numpy dtypes are reduced to the value facts above. Labels are treated as plain integers of unbounded width.
- SelectSliceAsWritten, MarkQueries: report every query that finds several ids as a failure. That is what NumPy 1.25 and later do when the number of ids differs from the grid width. Two cases are not modelled. When the number of ids equals the width, NumPy compares column x with the x-th id, in the sort's unspecified order among ties. Older NumPy returns a single False and marks nothing.
- SelectSlice: is the membership reading (every region of a selected area is marked), not the code as written; on a shared selected area the code differs, see "## Findings".
- MarkAll: marks by membership in the whole id list; the code compares the grid with a query's id array, which is membership only when the query found one id (`MarkQueries` models that).
- SelectGreaterConnectedRegions: applies the membership reading `SelectSlice` to every slice, so it inherits that reading on shared selected areas.
- KeptIffAmongLargest: is stated of the membership reading, which is the code only without a shared selected area (`AsWrittenKeptIffAmongLargest`); it also states the clean rank rule only for stats tables of at most 255 rows. Above that, the 8-bit id wrap and the survival of label 255 apply; `SelectSlice` states them.
- LargestRegionKept: is stated of the membership reading; when two regions share the largest area, the code as written fails at the comparison instead.
- Roi.FindRoi: its containment and tightness clauses assume every box coordinate fits in int16. Outside that range only the wrapped result is described, through `Roi.Int16`.
- `Regions.Consistent` does not require each region to be connected. `Regions.TouchingShareLabel` states one consequence of connectivity: touching foreground pixels share a label. The example slice of the findings is shown to satisfy it, but no general lemma assumes it.
- `SelectSlice` and `TopAreas` require a background row. The analyzer always supplies one; on an empty table, dropping row 0 would raise instead.
- That the input of `reconstruct_gg_areas` is never changed holds by construction, because volumes are immutable values. No contract states it.

## Findings

| source | as written | input that shows it | evidently intended | confidence | as-written member | corrected member |
|---|---|---|---|---|---|---|
| CTLungSeg/segmentation.py:89-91 | `lab == np.uint8(index)` compares the grid with the whole id array of the query, which is a membership test only when one region has the queried area | labels [[1, 0, 2]] (two single-pixel regions separated by background), foreground AREAs 1 and 1, n_reg = 1: the query finds [1, 2], and a (1, 3) grid cannot be compared with a (2,) array | every region whose AREA equals a selected area is marked 255, as the docstring at line 69 describes: the n_reg greatest regions are kept and the others removed | medium, not executed | RegionSelection.SelectSliceAsWritten, RegionSelection.TieFailsAsWritten | RegionSelection.SelectSlice, RegionSelection.KeptIffAmongLargest, RegionSelection.TieKeptByMembership |

=== FILE: bitplanes.dfy ===
/** Bit-plane recomposition (bit_plane_slices): each voxel becomes the sum of
    the selected bit planes weighted by 2^(b-1), cast back to 8 bits. The cast
    keeps the sum modulo 256, so the sum is computed in 8-bit arithmetic. */
module BitPlanes {
  import opened Grids
  import opened Results

  /** Indexing the planes with 8 - b fails outside 1..16, and also for an empty
      selection, whose array of positions is a float array that cannot index;
      the weight array is reshaped to exactly three entries, which fails for
      any other non-empty count. */
  datatype BitsError = BitIndexOutOfRange | NotThreeBits

  /** gl2bit: plane k holds bit 7 - k, so plane 0 is the most significant bit. */
  function Gl2Bit(v: Voxel, k: nat): (p: Voxel)
    requires k < 8
    ensures p == 0 || p == 1
  {
    if Bit(v, 7 - k) then 1 else 0
  }

  /** Position 8 - b in the plane axis; a negative position counts from the end. */
  function PlaneIndex(b: int): (k: nat)
    requires 1 <= b <= 16
    ensures k < 8
  {
    if 8 - b >= 0 then 8 - b else 16 - b
  }

  /** 2^k as it survives the final 8-bit cast: doubling in 8-bit arithmetic
      keeps the power modulo 256. */
  function Power(k: nat): Voxel
  {
    if k == 0 then 1 else Power(k - 1) * 2
  }

  /** The weight 2^(b-1) of position b. */
  function Significance(b: int): Voxel
    requires 1 <= b
  {
    Power(b - 1)
  }

  /** A bit position the plane indexing accepts. */
  predicate Indexable(b: int)
  {
    1 <= b <= 16
  }

  /** Weighted contribution of the plane selected by b to one voxel. */
  function Term(v: Voxel, b: int): Voxel
    requires Indexable(b)
  {
    Gl2Bit(v, PlaneIndex(b)) * Significance(b)
  }

  /** Sum over the selected planes, modulo 256. A plane adds nothing when the
      voxel's bit there is clear or when its weight vanishes, so a voxel with
      none of the selected low bits, and any selection of positions 9..16
      alone, give 0. */
  function Recompose(v: Voxel, bits: seq<int>): (r: Voxel)
    requires forall i :: 0 <= i < |bits| ==> Indexable(bits[i])
    ensures (forall i :: 0 <= i < |bits| && 1 <= bits[i] <= 8 ==> !Bit(v, bits[i] - 1)) ==> r == 0
    ensures (forall i :: 0 <= i < |bits| ==> 9 <= bits[i]) ==> r == 0
    decreases |bits|
  {
    if bits == [] then 0
    else
      var t := Term(v, bits[0]);
      assert 9 <= bits[0] ==> t == 0 by {
        if 9 <= bits[0] { HighPositionsVanish(v, bits[0]); }
      }
      t + Recompose(v, bits[1..])
  }

  /** bit_plane_slices on a whole stack, with its two ways to raise. */
  function BitPlaneSlices(stack: Volume, bits: seq<int>): (r: Result<Volume, BitsError>)
    ensures r.Success? <==> |bits| == 3 && forall i :: 0 <= i < |bits| ==> Indexable(bits[i])
    ensures r == Failure(BitIndexOutOfRange) <==>
      |bits| == 0 || exists i :: 0 <= i < |bits| && !Indexable(bits[i])
    ensures r.Success? ==>
      && |r.value| == |stack|
      && (forall k :: 0 <= k < |stack| ==> SameShape(r.value[k], stack[k]))
      && (forall k, y, x :: 0 <= k < |stack| && 0 <= y < |stack[k]| && 0 <= x < |stack[k][y]| ==>
            r.value[k][y][x] == Recompose(stack[k][y][x], bits))
  {
    if |bits| == 0 || exists i :: 0 <= i < |bits| && !Indexable(bits[i]) then Failure(BitIndexOutOfRange)
    else if |bits| != 3 then Failure(NotThreeBits)
    else Success(seq(|stack|, k requires 0 <= k < |stack| =>
                   seq(|stack[k]|, y requires 0 <= y < |stack[k]| =>
                     seq(|stack[k][y]|, x requires 0 <= x < |stack[k][y]| =>
                       Recompose(stack[k][y][x], bits)))))
  }

  /** The mask with bit b - 1 set for every selected position b. */
  function Mask(bits: seq<int>): Voxel
    requires forall i :: 0 <= i < |bits| ==> 1 <= bits[i] <= 8
  {
    if bits == [] then 0 else (1 << (bits[0] - 1)) | Mask(bits[1..])
  }

  /** Below 8 the power is the single bit k. */
  lemma {:induction false} PowerIsBit(k: nat)
    requires k < 8
    ensures Power(k) == 1 << k
  {
    if k > 0 {
      PowerIsBit(k - 1);
    }
  }

  /** From 8 on the power is a multiple of 256 and vanishes. */
  lemma {:induction false} PowerVanishes(k: nat)
    requires k >= 8
    ensures Power(k) == 0
  {
    if k == 8 {
      PowerIsBit(7);
    } else {
      PowerVanishes(k - 1);
    }
  }

  /** For 1 <= b <= 8 the term is bit b - 1 of v, left in place. */
  lemma TermIsMaskedBit(v: Voxel, b: int)
    requires 1 <= b <= 8
    ensures Term(v, b) == v & (1 << (b - 1))
  {
    PowerIsBit(b - 1);
    assert PlaneIndex(b) == 8 - b;
    assert Gl2Bit(v, 8 - b) == if Bit(v, b - 1) then 1 else 0;
  }

  /** Positions 9..16 select a real plane, but their weight is a multiple of 256. */
  lemma HighPositionsVanish(v: Voxel, b: int)
    requires 9 <= b <= 16
    ensures Term(v, b) == 0
  {
    PowerVanishes(b - 1);
  }

  /** Positions in 1..8 without repetition. */
  predicate DistinctLow(bits: seq<int>)
  {
    && (forall i :: 0 <= i < |bits| ==> 1 <= bits[i] <= 8)
    && (forall i, j :: 0 <= i < j < |bits| ==> bits[i] != bits[j])
  }

  /** Distinct positions in 1..8 keep exactly the selected bits of v: the
      recomposed value is v & mask. */
  lemma {:induction false} RecomposeIsMask(v: Voxel, bits: seq<int>)
    requires DistinctLow(bits)
    ensures Recompose(v, bits) == v & Mask(bits)
    decreases |bits|
  {
    if bits != [] {
      var b, rest := bits[0], bits[1..];
      assert DistinctLow(rest);
      RecomposeIsMask(v, rest);
      TermIsMaskedBit(v, b);
      assert b !in rest;
      MaskAvoids(rest, b);
      DisjointSum(v, 1 << (b - 1), Mask(rest));
    }
  }

  /** The mask of positions other than b has bit b - 1 clear. */
  lemma {:induction false} MaskAvoids(bits: seq<int>, b: int)
    requires forall i :: 0 <= i < |bits| ==> 1 <= bits[i] <= 8
    requires 1 <= b <= 8 && b !in bits
    ensures (1 << (b - 1)) & Mask(bits) == 0
    decreases |bits|
  {
    if bits != [] {
      MaskAvoids(bits[1..], b);
      DistinctPositionsDisjoint(b, bits[0]);
    }
  }

  lemma DistinctPositionsDisjoint(b: int, c: int)
    requires 1 <= b <= 8 && 1 <= c <= 8 && b != c
    ensures (1 << (b - 1)) & (1 << (c - 1)) == 0 as Voxel
  {
  }

  /** Adding the parts of v under two disjoint masks is masking with their union. */
  lemma DisjointSum(v: Voxel, m: Voxel, n: Voxel)
    requires m & n == 0
    ensures (v & m) + (v & n) == v & (m | n)
  {
  }

  lemma SingleBit(j: nat, b: int)
    requires j < 8 && 1 <= b <= 8
    ensures Bit(1 << (b - 1), j) <==> j + 1 == b
  {
  }

  /** Bit j of the mask is set exactly when position j + 1 is selected. */
  lemma {:induction false} MaskBit(bits: seq<int>, j: nat)
    requires forall i :: 0 <= i < |bits| ==> 1 <= bits[i] <= 8
    requires j < 8
    ensures Bit(Mask(bits), j) <==> j + 1 in bits
    decreases |bits|
  {
    if bits != [] {
      MaskBit(bits[1..], j);
      SingleBit(j, bits[0]);
      OrBit(1 << (bits[0] - 1), Mask(bits[1..]), j);
      assert bits == [bits[0]] + bits[1..];
    }
  }

  /** With distinct positions in 1..8 the output keeps bit j of v exactly
      when position j + 1 was selected, so it never exceeds v. */
  lemma SelectsBits(v: Voxel, bits: seq<int>)
    requires DistinctLow(bits)
    ensures Recompose(v, bits) <= v
    ensures forall j: nat :: j < 8 ==> (Bit(Recompose(v, bits), j) <==> Bit(v, j) && j + 1 in bits)
  {
    RecomposeIsMask(v, bits);
    var m := Mask(bits);
    assert v & m <= v;
    forall j: nat | j < 8
      ensures Bit(v & m, j) <==> Bit(v, j) && j + 1 in bits
    {
      MaskBit(bits, j);
      AndBit(v, m, j);
    }
  }

  /** A single position cannot be reshaped to three weights, so the call fails. */
  lemma SingleBitFails(stack: Volume)
    ensures BitPlaneSlices(stack, [8]).Failure?
  {
  }

  /** An empty selection fails at the plane indexing, before the reshape. */
  lemma EmptyBitsFailIndexing(stack: Volume)
    ensures BitPlaneSlices(stack, []) == Failure(BitIndexOutOfRange)
  {
  }

  /** Three distinct positions in 1..8: the call succeeds, keeps the shape,
      and every voxel becomes v & mask, never above v. */
  lemma DistinctBitsMaskEveryVoxel(stack: Volume, bits: seq<int>)
    requires |bits| == 3 && DistinctLow(bits)
    ensures BitPlaneSlices(stack, bits).Success?
    ensures forall k, y, x :: 0 <= k < |stack| && 0 <= y < |stack[k]| && 0 <= x < |stack[k][y]| ==>
      && BitPlaneSlices(stack, bits).value[k][y][x] == stack[k][y][x] & Mask(bits)
      && BitPlaneSlices(stack, bits).value[k][y][x] <= stack[k][y][x]
  {
    assert forall i :: 0 <= i < |bits| ==> Indexable(bits[i]);
    forall v: Voxel
      ensures Recompose(v, bits) == v & Mask(bits) && Recompose(v, bits) <= v
    {
      RecomposeIsMask(v, bits);
      SelectsBits(v, bits);
    }
  }

  /** A repeated position is summed twice and the 8-bit cast wraps the sum:
      128 + 128 + 1 becomes 1. */
  lemma RepeatedBitWraps()
    ensures Recompose(255, [8, 8, 1]) == 1
  {
    TermIsMaskedBit(255, 8);
    TermIsMaskedBit(255, 1);
  }
}

=== FILE: gap.dfy ===
/** Gap reconstruction along the slice axis (reconstruct_gg_areas): a forward
    prefix-OR sweep and a backward suffix-OR sweep over two copies of the mask,
    merged slice by slice with AND. Per pixel and per bit, the result is set on
    every slice lying between the first and the last slice where it is set. */
module GapReconstruction {
  import opened Grids

  function OrSlice(a: Slice, b: Slice): (r: Slice)
    requires SameShape(a, b)
    ensures SameShape(r, a)
    ensures forall y, x :: 0 <= y < |a| && 0 <= x < |a[y]| ==> r[y][x] == a[y][x] | b[y][x]
  {
    seq(|a|, y requires 0 <= y < |a| => seq(|a[y]|, x requires 0 <= x < |a[y]| => a[y][x] | b[y][x]))
  }

  function AndSlice(a: Slice, b: Slice): (r: Slice)
    requires SameShape(a, b)
    ensures SameShape(r, a)
    ensures forall y, x :: 0 <= y < |a| && 0 <= x < |a[y]| ==> r[y][x] == a[y][x] & b[y][x]
  {
    seq(|a|, y requires 0 <= y < |a| => seq(|a[y]|, x requires 0 <= x < |a[y]| => a[y][x] & b[y][x]))
  }

  /** Bit j of pixel (y, x) is set on slice k of the mask. */
  predicate On(mask: Volume, k: int, y: int, x: int, j: nat)
    requires Conformant(mask) && IsPixel(mask, y, x) && 0 <= k < |mask| && j < 8
  {
    Bit(mask[k][y][x], j)
  }

  /** Bit j of pixel (y, x) is set on some slice at or before slice i. */
  predicate SetUpTo(mask: Volume, i: int, y: int, x: int, j: nat)
    requires Conformant(mask) && IsPixel(mask, y, x) && j < 8
  {
    exists k :: 0 <= k <= i && k < |mask| && On(mask, k, y, x, j)
  }

  /** Bit j of pixel (y, x) is set on some slice at or after slice i. */
  predicate SetFrom(mask: Volume, i: int, y: int, x: int, j: nat)
    requires Conformant(mask) && IsPixel(mask, y, x) && j < 8
  {
    exists k :: 0 <= i <= k < |mask| && On(mask, k, y, x, j)
  }

  /** Slice i of the forward sweep: the OR of slices 0..i of the mask. */
  function PrefixOr(mask: Volume, i: nat): (r: Slice)
    requires Conformant(mask) && i < |mask|
    ensures SameShape(r, mask[0])
    decreases i
  {
    if i == 0 then mask[0] else OrSlice(PrefixOr(mask, i - 1), mask[i])
  }

  /** Slice i of the backward sweep: the OR of slices i..|mask|-1 of the mask. */
  function SuffixOr(mask: Volume, i: nat): (r: Slice)
    requires Conformant(mask) && i < |mask|
    ensures SameShape(r, mask[0])
    decreases |mask| - i
  {
    if i == |mask| - 1 then mask[i] else OrSlice(mask[i], SuffixOr(mask, i + 1))
  }

  /** The merged volume: slice i is the AND of both sweeps at slice i. */
  function Reconstruct(mask: Volume): (r: Volume)
    requires Conformant(mask)
    ensures |r| == |mask|
    ensures forall i :: 0 <= i < |r| ==> SameShape(r[i], mask[0])
    ensures Conformant(r)
  {
    seq(|mask|, i requires 0 <= i < |mask| => AndSlice(PrefixOr(mask, i), SuffixOr(mask, i)))
  }

  lemma {:induction false} PrefixOrBits(mask: Volume, i: nat, y: int, x: int, j: nat)
    requires Conformant(mask) && i < |mask| && IsPixel(mask, y, x) && j < 8
    ensures Bit(PrefixOr(mask, i)[y][x], j) <==> SetUpTo(mask, i, y, x, j)
    decreases i
  {
    if i == 0 {
      if SetUpTo(mask, i, y, x, j) {
        var k :| 0 <= k <= i && k < |mask| && On(mask, k, y, x, j);
        assert k == 0;
      }
      assert On(mask, 0, y, x, j) ==> SetUpTo(mask, i, y, x, j);
    } else {
      PrefixOrBits(mask, i - 1, y, x, j);
      OrBit(PrefixOr(mask, i - 1)[y][x], mask[i][y][x], j);
      if SetUpTo(mask, i, y, x, j) && !On(mask, i, y, x, j) {
        var k :| 0 <= k <= i && k < |mask| && On(mask, k, y, x, j);
        assert SetUpTo(mask, i - 1, y, x, j);
      }
      assert On(mask, i, y, x, j) ==> SetUpTo(mask, i, y, x, j);
    }
  }

  lemma {:induction false} SuffixOrBits(mask: Volume, i: nat, y: int, x: int, j: nat)
    requires Conformant(mask) && i < |mask| && IsPixel(mask, y, x) && j < 8
    ensures Bit(SuffixOr(mask, i)[y][x], j) <==> SetFrom(mask, i, y, x, j)
    decreases |mask| - i
  {
    if i == |mask| - 1 {
      if SetFrom(mask, i, y, x, j) {
        var k :| 0 <= i <= k < |mask| && On(mask, k, y, x, j);
        assert k == i;
      }
      assert On(mask, i, y, x, j) ==> SetFrom(mask, i, y, x, j);
    } else {
      SuffixOrBits(mask, i + 1, y, x, j);
      OrBit(mask[i][y][x], SuffixOr(mask, i + 1)[y][x], j);
      if SetFrom(mask, i, y, x, j) && !On(mask, i, y, x, j) {
        var k :| 0 <= i <= k < |mask| && On(mask, k, y, x, j);
        assert SetFrom(mask, i + 1, y, x, j);
      }
      assert On(mask, i, y, x, j) ==> SetFrom(mask, i, y, x, j);
    }
  }

  /** A bit of the result is set on slice i exactly when it is set on some
      slice at or before i and on some slice at or after i. */
  lemma ReconstructBits(mask: Volume, i: nat, y: int, x: int, j: nat)
    requires Conformant(mask) && i < |mask| && IsPixel(mask, y, x) && j < 8
    ensures Bit(Reconstruct(mask)[i][y][x], j) <==> SetUpTo(mask, i, y, x, j) && SetFrom(mask, i, y, x, j)
  {
    PrefixOrBits(mask, i, y, x, j);
    SuffixOrBits(mask, i, y, x, j);
    AndBit(PrefixOr(mask, i)[y][x], SuffixOr(mask, i)[y][x], j);
  }

  lemma ReconstructBitsEverywhere(mask: Volume)
    requires Conformant(mask)
    ensures forall i, y, x, j: nat :: 0 <= i < |mask| && IsPixel(mask, y, x) && j < 8 ==>
      (Bit(Reconstruct(mask)[i][y][x], j) <==> SetUpTo(mask, i, y, x, j) && SetFrom(mask, i, y, x, j))
  {
    forall i, y, x, j: nat | 0 <= i < |mask| && IsPixel(mask, y, x) && j < 8
      ensures Bit(Reconstruct(mask)[i][y][x], j) <==> SetUpTo(mask, i, y, x, j) && SetFrom(mask, i, y, x, j)
    {
      ReconstructBits(mask, i, y, x, j);
    }
  }

  /** Slices k and l carry a bit, so every slice between them carries it in the
      result: a slice missing between two present ones (k + 2 == l) is filled. */
  lemma FillsGap(mask: Volume, k: nat, i: nat, l: nat, y: int, x: int, j: nat)
    requires Conformant(mask) && IsPixel(mask, y, x) && j < 8
    requires k <= i <= l < |mask|
    requires On(mask, k, y, x, j) && On(mask, l, y, x, j)
    ensures Bit(Reconstruct(mask)[i][y][x], j)
  {
    ReconstructBits(mask, i, y, x, j);
  }

  /** A bit that is set on a single slice only is not carried to any other slice. */
  lemma NoSpreadFromSingleSlice(mask: Volume, k: nat, y: int, x: int, j: nat)
    requires Conformant(mask) && IsPixel(mask, y, x) && j < 8 && k < |mask|
    requires forall l :: 0 <= l < |mask| ==> (On(mask, l, y, x, j) <==> l == k)
    ensures forall i :: 0 <= i < |mask| ==> (Bit(Reconstruct(mask)[i][y][x], j) <==> i == k)
  {
    forall i | 0 <= i < |mask|
      ensures Bit(Reconstruct(mask)[i][y][x], j) <==> i == k
    {
      ReconstructBits(mask, i, y, x, j);
      if i == k {
        assert On(mask, k, y, x, j);
      }
    }
  }

  /** Every bit of the input survives: the reconstruction is extensive. */
  lemma Extensive(mask: Volume)
    requires Conformant(mask)
    ensures forall i, y, x :: 0 <= i < |mask| && IsPixel(mask, y, x) ==>
      mask[i][y][x] | Reconstruct(mask)[i][y][x] == Reconstruct(mask)[i][y][x]
  {
    var r := Reconstruct(mask);
    forall i, y, x | 0 <= i < |mask| && IsPixel(mask, y, x)
      ensures mask[i][y][x] | r[i][y][x] == r[i][y][x]
    {
      forall j: nat | j < 8
        ensures Bit(mask[i][y][x] | r[i][y][x], j) <==> Bit(r[i][y][x], j)
      {
        OrBit(mask[i][y][x], r[i][y][x], j);
        ReconstructBits(mask, i, y, x, j);
        if On(mask, i, y, x, j) {
          assert SetUpTo(mask, i, y, x, j) && SetFrom(mask, i, y, x, j);
        }
      }
      BitsDetermine(mask[i][y][x] | r[i][y][x], r[i][y][x]);
    }
  }

  /** Along z, the set of slices carrying a given bit of a given pixel is an
      interval: no slice between two carrying slices lacks it. */
  ghost predicate Gapless(mask: Volume)
    requires Conformant(mask)
  {
    forall y, x, j: nat, k, i, l ::
      && IsPixel(mask, y, x) && j < 8 && 0 <= k <= i <= l < |mask|
      && On(mask, k, y, x, j) && On(mask, l, y, x, j)
      ==> On(mask, i, y, x, j)
  }

  lemma ReconstructIsGapless(mask: Volume)
    requires Conformant(mask)
    ensures Gapless(Reconstruct(mask))
  {
    var r := Reconstruct(mask);
    forall y, x, j: nat, k, i, l |
      IsPixel(r, y, x) && j < 8 && 0 <= k <= i <= l < |r| &&
      On(r, k, y, x, j) && On(r, l, y, x, j)
      ensures On(r, i, y, x, j)
    {
      ReconstructBits(mask, k, y, x, j);
      ReconstructBits(mask, l, y, x, j);
      ReconstructBits(mask, i, y, x, j);
      var a :| 0 <= a <= k && a < |mask| && On(mask, a, y, x, j);
      var b :| 0 <= l <= b < |mask| && On(mask, b, y, x, j);
      assert SetUpTo(mask, i, y, x, j);
      assert SetFrom(mask, i, y, x, j);
    }
  }

  lemma GaplessVoxel(mask: Volume, i: nat, y: int, x: int)
    requires Conformant(mask) && Gapless(mask) && i < |mask| && IsPixel(mask, y, x)
    ensures Reconstruct(mask)[i][y][x] == mask[i][y][x]
  {
    var r := Reconstruct(mask);
    forall j: nat | j < 8
      ensures Bit(r[i][y][x], j) <==> Bit(mask[i][y][x], j)
    {
      ReconstructBits(mask, i, y, x, j);
      if SetUpTo(mask, i, y, x, j) && SetFrom(mask, i, y, x, j) {
        var a :| 0 <= a <= i && a < |mask| && On(mask, a, y, x, j);
        var b :| 0 <= i <= b < |mask| && On(mask, b, y, x, j);
      }
      if On(mask, i, y, x, j) {
        assert SetUpTo(mask, i, y, x, j) && SetFrom(mask, i, y, x, j);
      }
    }
    BitsDetermine(r[i][y][x], mask[i][y][x]);
  }

  /** A mask that already has no gaps is left unchanged. */
  lemma GaplessIsFixed(mask: Volume)
    requires Conformant(mask) && Gapless(mask)
    ensures Reconstruct(mask) == mask
  {
    var r := Reconstruct(mask);
    forall i | 0 <= i < |mask|
      ensures r[i] == mask[i]
    {
      forall y | 0 <= y < |mask[i]|
        ensures r[i][y] == mask[i][y]
      {
        forall x | 0 <= x < |mask[i][y]|
          ensures r[i][y][x] == mask[i][y][x]
        {
          GaplessVoxel(mask, i, y, x);
        }
      }
    }
  }

  /** Reapplying the reconstruction changes nothing. */
  lemma Idempotent(mask: Volume)
    requires Conformant(mask)
    ensures Reconstruct(Reconstruct(mask)) == Reconstruct(mask)
  {
    ReconstructIsGapless(mask);
    GaplessIsFixed(Reconstruct(mask));
  }

  /** One step of the forward loop: slice i + 1 becomes the OR of slices i and i + 1. */
  lemma ForwardStep(mask: Volume, first: Volume, i: nat)
    requires Conformant(mask) && i + 1 < |mask| && |first| == |mask|
    requires first[i] == PrefixOr(mask, i) && first[i + 1] == mask[i + 1]
    ensures SameShape(first[i], first[i + 1])
    ensures OrSlice(first[i], first[i + 1]) == PrefixOr(mask, i + 1)
  {
    SameShapeVia(first[i], first[i + 1], mask[0]);
  }

  /** One step of the backward loop: slice i - 1 becomes the OR of slices i - 1 and i. */
  lemma BackwardStep(mask: Volume, second: Volume, i: nat)
    requires Conformant(mask) && 1 <= i < |mask| && |second| == |mask|
    requires second[i] == SuffixOr(mask, i) && second[i - 1] == mask[i - 1]
    ensures SameShape(second[i - 1], second[i])
    ensures OrSlice(second[i - 1], second[i]) == SuffixOr(mask, i - 1)
  {
    SameShapeVia(second[i - 1], second[i], mask[0]);
  }

  /** Forward sweep over a copy of the mask: the first loop of
      reconstruct_gg_areas, over range(n - 1). */
  method SweepForward(mask: Volume) returns (first: Volume)
    requires Conformant(mask)
    ensures |first| == |mask|
    ensures forall k :: 0 <= k < |mask| ==> first[k] == PrefixOr(mask, k)
  {
    var n := |mask|;
    first := mask;
    var i := 0;
    while i < n - 1
      invariant 0 <= i <= if n == 0 then 0 else n - 1
      invariant |first| == n
      invariant forall k {:trigger first[k]} :: 0 <= k <= i && k < n ==> first[k] == PrefixOr(mask, k)
      invariant forall k {:trigger first[k]} :: i < k < n ==> first[k] == mask[k]
    {
      ForwardStep(mask, first, i);
      first := first[i + 1 := OrSlice(first[i], first[i + 1])];
      i := i + 1;
    }
  }

  /** Backward sweep over a second copy: the second loop of
      reconstruct_gg_areas, over reversed(range(1, n)). */
  method SweepBackward(mask: Volume) returns (second: Volume)
    requires Conformant(mask)
    ensures |second| == |mask|
    ensures forall k :: 0 <= k < |mask| ==> second[k] == SuffixOr(mask, k)
  {
    var n := |mask|;
    second := mask;
    var i := n - 1;
    while i >= 1
      invariant -1 <= i < n && (n > 0 ==> i >= 0)
      invariant |second| == n
      invariant forall k {:trigger second[k]} :: i <= k < n && 0 <= k ==> second[k] == SuffixOr(mask, k)
      invariant forall k {:trigger second[k]} :: 0 <= k < i ==> second[k] == mask[k]
    {
      BackwardStep(mask, second, i);
      second := second[i - 1 := OrSlice(second[i - 1], second[i])];
      i := i - 1;
    }
  }

  /** The three-buffer algorithm: `first` and `second` are independent copies
      swept forward and backward, `reconstructed` receives their AND. */
  method ReconstructGgAreas(mask: Volume) returns (reconstructed: Volume)
    requires Conformant(mask)
    ensures reconstructed == Reconstruct(mask)
    ensures |reconstructed| == |mask| && Conformant(reconstructed)
    ensures forall i :: 0 <= i < |mask| ==> SameShape(reconstructed[i], mask[i])
    ensures forall i, y, x, j: nat :: 0 <= i < |mask| && IsPixel(mask, y, x) && j < 8 ==>
      (Bit(reconstructed[i][y][x], j) <==> SetUpTo(mask, i, y, x, j) && SetFrom(mask, i, y, x, j))
  {
    var n := |mask|;
    var first := SweepForward(mask);
    var second := SweepBackward(mask);
    reconstructed := mask;
    var i := 0;
    while i < n
      invariant 0 <= i <= n
      invariant |reconstructed| == n
      invariant forall k {:trigger reconstructed[k]} :: 0 <= k < i ==> reconstructed[k] == Reconstruct(mask)[k]
      invariant forall k {:trigger reconstructed[k]} :: i <= k < n ==> reconstructed[k] == mask[k]
    {
      reconstructed := reconstructed[i := AndSlice(first[i], second[i])];
      i := i + 1;
    }
    assert reconstructed == Reconstruct(mask);
    ReconstructBitsEverywhere(mask);
  }
}

=== FILE: grids.dfy ===
/** Shared shapes: 8-bit slices and volumes, label grids, and the bit-level
    view of an 8-bit voxel used to reason about bitwise OR/AND. */
module Grids {

  /** One unsigned 8-bit sample. */
  type Voxel = bv8

  /** A 2D grid of samples (one CT slice). */
  type Slice = seq<seq<Voxel>>

  /** An ordered stack of slices; index 0 is the first slice along z. */
  type Volume = seq<Slice>

  /** Two grids have the same number of rows and the same row lengths. */
  predicate SameShape<T, U>(a: seq<seq<T>>, b: seq<seq<U>>)
  {
    |a| == |b| && forall y :: 0 <= y < |a| ==> |a[y]| == |b[y]|
  }

  lemma SameShapeVia<T, U, W>(a: seq<seq<T>>, b: seq<seq<U>>, c: seq<seq<W>>)
    requires SameShape(a, c) && SameShape(b, c)
    ensures SameShape(a, b)
  {
  }

  /** Every slice of the volume has the shape of the first one, as in an ndarray. */
  predicate Conformant(v: Volume)
  {
    forall k :: 0 <= k < |v| ==> SameShape(v[k], v[0])
  }

  /** (y, x) addresses a pixel of every slice of a non-empty conformant volume. */
  predicate IsPixel(v: Volume, y: int, x: int)
  {
    |v| > 0 && 0 <= y < |v[0]| && 0 <= x < |v[0][y]|
  }

  /** Bit j (0 = least significant) of an 8-bit sample is set. */
  predicate Bit(v: Voxel, j: nat)
    requires j < 8
  {
    v & (1 << j) != 0
  }

  lemma OrBit(a: Voxel, b: Voxel, j: nat)
    requires j < 8
    ensures Bit(a | b, j) <==> Bit(a, j) || Bit(b, j)
  {
  }

  lemma AndBit(a: Voxel, b: Voxel, j: nat)
    requires j < 8
    ensures Bit(a & b, j) <==> Bit(a, j) && Bit(b, j)
  {
  }

  /** Two samples with the same eight bits are equal. */
  lemma BitsDetermine(a: Voxel, b: Voxel)
    requires forall j: nat :: j < 8 ==> (Bit(a, j) <==> Bit(b, j))
    ensures a == b
  {
    assert Bit(a, 0) == Bit(b, 0);
    assert Bit(a, 1) == Bit(b, 1);
    assert Bit(a, 2) == Bit(b, 2);
    assert Bit(a, 3) == Bit(b, 3);
    assert Bit(a, 4) == Bit(b, 4);
    assert Bit(a, 5) == Bit(b, 5);
    assert Bit(a, 6) == Bit(b, 6);
    assert Bit(a, 7) == Bit(b, 7);
  }
}

=== FILE: regions.dfy ===
/** The component analyzer's per-slice output, taken as input: a label grid
    (0 = background, any other value one connected region) and a stats table
    whose row j describes region j, as the analyzer returns it. */
module Regions {

  /** One row of the stats table: bounding box and pixel count of a region. */
  datatype Stats = Stats(left: int, top: int, width: int, height: int, area: int)

  type LabelGrid = seq<seq<nat>>

  /** Row j holds the stats of region j; row 0 is the background. */
  type StatsTable = seq<Stats>

  datatype SliceAnalysis = SliceAnalysis(labels: LabelGrid, stats: StatsTable)

  function CountInRow(row: seq<nat>, id: nat): nat
  {
    if row == [] then 0 else (if row[0] == id then 1 else 0) + CountInRow(row[1..], id)
  }

  /** Number of pixels of the grid that carry label `id`. */
  function CountLabel(g: LabelGrid, id: nat): nat
  {
    if g == [] then 0 else CountInRow(g[0], id) + CountLabel(g[1..], id)
  }

  /** The shape part of the analyzer's contract: a background row exists and
      every label has a row. */
  predicate Labelled(a: SliceAnalysis)
  {
    && |a.stats| >= 1
    && (forall y, x :: 0 <= y < |a.labels| && 0 <= x < |a.labels[y]| ==> a.labels[y][x] < |a.stats|)
  }

  /** The analyzer's contract: the labels have rows, and every AREA is the
      pixel count of its label. */
  predicate Consistent(a: SliceAnalysis)
  {
    && Labelled(a)
    && (forall id :: 0 <= id < |a.stats| ==> a.stats[id].area == CountLabel(a.labels, id))
  }

  /** Foreground pixels in the same column of two consecutive rows. */
  predicate ColumnsAgree(upper: seq<nat>, lower: seq<nat>)
  {
    forall x :: 0 <= x < |upper| && x < |lower| && upper[x] != 0 && lower[x] != 0 ==> upper[x] == lower[x]
  }

  /** Foreground pixels that touch horizontally or vertically carry the same
      label: any labelling into connected regions has this property, with
      either connectivity. */
  predicate TouchingShareLabel(g: LabelGrid)
  {
    && (forall y, x :: 0 <= y < |g| && 0 <= x && x + 1 < |g[y]| && g[y][x] != 0 && g[y][x + 1] != 0 ==>
          g[y][x] == g[y][x + 1])
    && (forall y :: 0 <= y && y + 1 < |g| ==> ColumnsAgree(g[y], g[y + 1]))
  }
}

=== FILE: results.dfy ===
/** Success-or-error outcome for operations that raise on bad input. */
module Results {
  datatype Result<+T, +E> = Success(value: T) | Failure(error: E)
}

=== FILE: roi.dfy ===
/** Bounding box of all foreground regions of one slice (find_ROI). */
module Roi {
  import opened Results
  import opened Regions

  /** [x_top, y_top, x_bottom, y_bottom] of the region of interest. */
  datatype Corners = Corners(xTop: int, yTop: int, xBottom: int, yBottom: int)

  /** Dropping row 0 fails when the table has no row with index 0. */
  datatype RoiError = MissingBackgroundRow

  predicate InInt16(x: int)
  {
    -0x8000 <= x < 0x8000
  }

  /** Two's-complement wrap of the final int16 cast. */
  function Int16(x: int): (r: int)
    ensures InInt16(r)
    ensures InInt16(x) ==> r == x
    ensures (r - x) % 0x1_0000 == 0
  {
    (x + 0x8000) % 0x1_0000 - 0x8000
  }

  function Min(xs: seq<int>): (m: int)
    requires |xs| > 0
    ensures m in xs
    ensures forall i :: 0 <= i < |xs| ==> m <= xs[i]
  {
    if |xs| == 1 then xs[0]
    else
      var rest := Min(xs[1..]);
      assert forall i :: 1 <= i < |xs| ==> xs[i] == xs[1..][i - 1];
      if xs[0] <= rest then xs[0] else rest
  }

  function Max(xs: seq<int>): (m: int)
    requires |xs| > 0
    ensures m in xs
    ensures forall i :: 0 <= i < |xs| ==> xs[i] <= m
  {
    if |xs| == 1 then xs[0]
    else
      var rest := Max(xs[1..]);
      assert forall i :: 1 <= i < |xs| ==> xs[i] == xs[1..][i - 1];
      if xs[0] >= rest then xs[0] else rest
  }

  function Lefts(rows: seq<Stats>): (r: seq<int>)
    ensures |r| == |rows| && forall i :: 0 <= i < |rows| ==> r[i] == rows[i].left
  {
    seq(|rows|, i requires 0 <= i < |rows| => rows[i].left)
  }

  function Tops(rows: seq<Stats>): (r: seq<int>)
    ensures |r| == |rows| && forall i :: 0 <= i < |rows| ==> r[i] == rows[i].top
  {
    seq(|rows|, i requires 0 <= i < |rows| => rows[i].top)
  }

  function Rights(rows: seq<Stats>): (r: seq<int>)
    ensures |r| == |rows| && forall i :: 0 <= i < |rows| ==> r[i] == rows[i].left + rows[i].width
  {
    seq(|rows|, i requires 0 <= i < |rows| => rows[i].left + rows[i].width)
  }

  function Bottoms(rows: seq<Stats>): (r: seq<int>)
    ensures |r| == |rows| && forall i :: 0 <= i < |rows| ==> r[i] == rows[i].top + rows[i].height
  {
    seq(|rows|, i requires 0 <= i < |rows| => rows[i].top + rows[i].height)
  }

  /** All four box coordinates of a row fit in int16. */
  predicate RowFits(s: Stats)
  {
    InInt16(s.left) && InInt16(s.top) && InInt16(s.left + s.width) && InInt16(s.top + s.height)
  }

  /** Every foreground row fits in int16. */
  predicate FitsInt16(stats: StatsTable)
  {
    forall j :: 1 <= j < |stats| ==> RowFits(stats[j])
  }

  /** Region j's bounding box lies inside the corners. */
  predicate Encloses(c: Corners, s: Stats)
  {
    c.xTop <= s.left && c.yTop <= s.top && s.left + s.width <= c.xBottom && s.top + s.height <= c.yBottom
  }

  /** Bounding box of a non-empty list of regions, before the int16 cast:
      it encloses every region and each corner is one of the regions' edges. */
  function Box(rows: seq<Stats>): (c: Corners)
    requires |rows| > 0
    ensures forall j :: 0 <= j < |rows| ==> Encloses(c, rows[j])
    ensures c.xTop in Lefts(rows) && c.yTop in Tops(rows)
    ensures c.xBottom in Rights(rows) && c.yBottom in Bottoms(rows)
  {
    Corners(Min(Lefts(rows)), Min(Tops(rows)), Max(Rights(rows)), Max(Bottoms(rows)))
  }

  /** The int16 cast applied to each coordinate. */
  function CastCorners(c: Corners): (r: Corners)
    ensures InInt16(r.xTop) && InInt16(r.yTop) && InInt16(r.xBottom) && InInt16(r.yBottom)
    ensures InInt16(c.xTop) && InInt16(c.yTop) && InInt16(c.xBottom) && InInt16(c.yBottom) ==> r == c
  {
    Corners(Int16(c.xTop), Int16(c.yTop), Int16(c.xBottom), Int16(c.yBottom))
  }

  /** A box whose corners come from rows that fit in int16 fits as well, so
      the cast leaves it unchanged. */
  lemma BoxSurvivesCast(rows: seq<Stats>)
    requires |rows| > 0 && forall j :: 0 <= j < |rows| ==> RowFits(rows[j])
    ensures CastCorners(Box(rows)) == Box(rows)
  {
    var c := Box(rows);
    assert InInt16(c.xTop) && InInt16(c.yTop);
    assert InInt16(c.xBottom) && InInt16(c.yBottom);
  }

  /** Drop the background row, reduce the remaining rows to their bounding box,
      map the empty reduction to zeros, and cast to int16. */
  function FindRoi(stats: StatsTable): (r: Result<Corners, RoiError>)
    ensures r.Failure? <==> |stats| == 0
    ensures |stats| == 1 ==> r == Success(Corners(0, 0, 0, 0))
    ensures r.Success? ==>
      && InInt16(r.value.xTop) && InInt16(r.value.yTop)
      && InInt16(r.value.xBottom) && InInt16(r.value.yBottom)
    ensures r.Success? && FitsInt16(stats) ==>
      forall j :: 1 <= j < |stats| ==> Encloses(r.value, stats[j])
    ensures r.Success? && |stats| > 1 && FitsInt16(stats) ==>
      && r.value.xTop in Lefts(stats[1..]) && r.value.yTop in Tops(stats[1..])
      && r.value.xBottom in Rights(stats[1..]) && r.value.yBottom in Bottoms(stats[1..])
  {
    if |stats| == 0 then Failure(MissingBackgroundRow)
    else if |stats| == 1 then Success(Corners(0, 0, 0, 0))
    else
      var fg := stats[1..];
      assert forall j :: 1 <= j < |stats| ==> stats[j] == fg[j - 1];
      assert FitsInt16(stats) ==> CastCorners(Box(fg)) == Box(fg) by {
        if FitsInt16(stats) {
          BoxSurvivesCast(fg);
        }
      }
      Success(CastCorners(Box(fg)))
  }

  /** A single region {LEFT 2, TOP 3, WIDTH 4, HEIGHT 5} gives [2, 3, 6, 8]. */
  lemma SingleRegionExample()
    ensures FindRoi([Stats(0, 0, 10, 10, 80), Stats(2, 3, 4, 5, 20)]) == Success(Corners(2, 3, 6, 8))
  {
  }
}

=== FILE: selection.dfy ===
/** Top-N region selection (select_greater_connected_regions): per slice, drop
    the background row, sort the remaining areas in descending order, query the
    regions carrying each of the first n_reg sorted areas and mark them with
    255; everything else becomes 0. A slice with fewer than n_reg foreground
    regions is cleared entirely. SelectSliceAsWritten follows the comparison of
    the grid with each query's ids as written; SelectSlice reads it as
    membership, and the two agree unless two regions share a selected area. */
module RegionSelection {
  import opened Grids
  import opened Regions
  import opened Results
  import opened Sorting

  /** The value used both as the mark and as the surviving foreground. */
  const Marked: nat := 255

  /** AREA column of the table once the background row is dropped. */
  function ForegroundAreas(stats: StatsTable): (r: seq<int>)
    requires |stats| >= 1
    ensures |r| == |stats| - 1
    ensures forall j :: 1 <= j < |stats| ==> r[j - 1] == stats[j].area
  {
    seq(|stats| - 1, i requires 0 <= i < |stats| - 1 => stats[i + 1].area)
  }

  /** The areas read at sorted positions 0 .. n_reg - 1. */
  function TopAreas(stats: StatsTable, nReg: int): (r: seq<int>)
    requires |stats| >= 1 && nReg <= |stats| - 1
  {
    SortDesc(ForegroundAreas(stats))[..if nReg < 0 then 0 else nReg]
  }

  /** Foreground ids, from row `from` on, whose AREA equals `a` (the query
      `AREA == a` on the table without its background row). */
  function RegionsWithArea(stats: StatsTable, a: int, from: nat): (ids: seq<nat>)
    requires from >= 1
    ensures forall id {:trigger id in ids} :: id in ids <==> from <= id < |stats| && stats[id].area == a
    ensures forall i, j :: 0 <= i < j < |ids| ==> ids[i] != ids[j]
    decreases |stats| - from
  {
    if from >= |stats| then []
    else
      var rest := RegionsWithArea(stats, a, from + 1);
      assert forall i :: 0 <= i < |rest| ==> rest[i] in rest && rest[i] > from;
      (if stats[from].area == a then [from] else []) + rest
  }

  /** The ids the loop over the selected areas marks, in loop order. */
  function SelectedIds(stats: StatsTable, areas: seq<int>): (ids: seq<nat>)
    ensures forall id :: id in ids <==> 1 <= id < |stats| && stats[id].area in areas
    decreases |areas|
  {
    if areas == [] then [] else RegionsWithArea(stats, areas[0], 1) + SelectedIds(stats, areas[1..])
  }

  /** Every pixel whose label equals the id, wrapped to 8 bits, becomes 255. */
  function Mark(lab: LabelGrid, id: nat): (r: LabelGrid)
    ensures SameShape(r, lab)
    ensures forall y, x :: 0 <= y < |lab| && 0 <= x < |lab[y]| ==>
      r[y][x] == if lab[y][x] == id % 256 then Marked else lab[y][x]
  {
    seq(|lab|, y requires 0 <= y < |lab| =>
      seq(|lab[y]|, x requires 0 <= x < |lab[y]| => if lab[y][x] == id % 256 then Marked else lab[y][x]))
  }

  /** Mark the listed regions one after the other. */
  function MarkAll(lab: LabelGrid, ids: seq<nat>): (r: LabelGrid)
    ensures SameShape(r, lab)
    ensures forall y, x :: 0 <= y < |lab| && 0 <= x < |lab[y]| ==>
      r[y][x] == if exists id :: id in ids && lab[y][x] == id % 256 then Marked else lab[y][x]
    decreases |ids|
  {
    if ids == [] then lab
    else
      var once := Mark(lab, ids[0]);
      var r := MarkAll(once, ids[1..]);
      assert forall y, x :: 0 <= y < |lab| && 0 <= x < |lab[y]| ==>
        r[y][x] == if exists id :: id in ids && lab[y][x] == id % 256 then Marked else lab[y][x]
      by {
        forall y, x | 0 <= y < |lab| && 0 <= x < |lab[y]|
          ensures r[y][x] == if exists id :: id in ids && lab[y][x] == id % 256 then Marked else lab[y][x]
        {
          if lab[y][x] == ids[0] % 256 {
            assert ids[0] in ids;
          } else {
            assert once[y][x] == lab[y][x];
            if exists id :: id in ids && lab[y][x] == id % 256 {
              var id :| id in ids && lab[y][x] == id % 256;
              assert id != ids[0];
              assert id in ids[1..];
            }
            if exists id :: id in ids[1..] && lab[y][x] == id % 256 {
              var id :| id in ids[1..] && lab[y][x] == id % 256;
              assert id in ids;
            }
          }
        }
      }
      r
  }

  /** Every pixel whose label is not 255 becomes 0; the rest stay 255. */
  function KeepMarked(lab: LabelGrid): (r: Slice)
    ensures SameShape(r, lab)
    ensures forall y, x :: 0 <= y < |lab| && 0 <= x < |lab[y]| ==>
      r[y][x] == if lab[y][x] == Marked then 255 else 0
  {
    seq(|lab|, y requires 0 <= y < |lab| =>
      seq(|lab[y]|, x requires 0 <= x < |lab[y]| => if lab[y][x] == Marked then 255 as Voxel else 0))
  }

  /** Every pixel becomes 0: the slice becomes all background. */
  function ClearAll(lab: LabelGrid): (r: Slice)
    ensures SameShape(r, lab)
    ensures forall y, x :: 0 <= y < |lab| && 0 <= x < |lab[y]| ==> r[y][x] == 0
  {
    seq(|lab|, y requires 0 <= y < |lab| => seq(|lab[y]|, x requires 0 <= x < |lab[y]| => 0 as Voxel))
  }

  /** Label l is hit by the comparison with some foreground id whose AREA is
      one of the selected areas, after that id is wrapped to 8 bits. */
  predicate HitBySelection(stats: StatsTable, top: seq<int>, l: nat)
  {
    exists id :: 1 <= id < |stats| && stats[id].area in top && l == id % 256
  }

  /** One slice of select_greater_connected_regions, reading the comparison of
      the grid with a query's ids as membership, so that every region of a
      selected area is marked. A pixel ends at 255 when its label equals some
      selected id modulo 256, or when its label is 255 itself (such a region is
      never cleared); otherwise it is 0. SelectSliceAsWritten is the loop as
      written, which agrees with this exactly when no selected area is shared. */
  function SelectSlice(a: SliceAnalysis, nReg: int): (r: Slice)
    requires |a.stats| >= 1
    ensures SameShape(r, a.labels)
    ensures forall y, x :: 0 <= y < |a.labels| && 0 <= x < |a.labels[y]| ==> r[y][x] == 0 || r[y][x] == 255
    ensures |a.stats| - 1 < nReg ==>
      forall y, x :: 0 <= y < |a.labels| && 0 <= x < |a.labels[y]| ==> r[y][x] == 0
    ensures |a.stats| - 1 >= nReg ==>
      forall y, x :: 0 <= y < |a.labels| && 0 <= x < |a.labels[y]| ==>
        (r[y][x] == 255 <==>
          a.labels[y][x] == Marked || HitBySelection(a.stats, TopAreas(a.stats, nReg), a.labels[y][x]))
  {
    if |a.stats| - 1 > nReg - 1 then
      var ids := SelectedIds(a.stats, TopAreas(a.stats, nReg));
      var r := KeepMarked(MarkAll(a.labels, ids));
      assert forall l: nat :: (exists id :: id in ids && l == id % 256) <==> HitBySelection(a.stats, TopAreas(a.stats, nReg), l);
      r
    else
      ClearAll(a.labels)
  }

  /** The whole stack, slice by slice. */
  function SelectGreaterConnectedRegions(analysis: seq<SliceAnalysis>, nReg: int): (r: Volume)
    requires forall i :: 0 <= i < |analysis| ==> |analysis[i].stats| >= 1
    ensures |r| == |analysis|
    ensures forall i :: 0 <= i < |r| ==> r[i] == SelectSlice(analysis[i], nReg)
  {
    seq(|analysis|, i requires 0 <= i < |analysis| => SelectSlice(analysis[i], nReg))
  }

  /** Comparing the grid with the index of a query that found several ids is
      not a membership test: NumPy broadcasts the id array against the grid's
      columns and raises when the lengths differ. */
  datatype SelectError = AmbiguousQuery

  /** Lines 89-91 of select_greater_connected_regions as written: the query
      for each selected area is compared with the grid. A single id marks its
      region; any other number of ids is the broadcast failure. */
  function MarkQueries(lab: LabelGrid, stats: StatsTable, areas: seq<int>): (r: Result<LabelGrid, SelectError>)
    ensures r.Failure? <==> exists i :: 0 <= i < |areas| && |RegionsWithArea(stats, areas[i], 1)| != 1
    ensures r.Success? ==> r.value == MarkAll(lab, SelectedIds(stats, areas))
    decreases |areas|
  {
    if areas == [] then Success(lab)
    else
      var ids := RegionsWithArea(stats, areas[0], 1);
      assert forall i :: 1 <= i < |areas| ==> areas[i] == areas[1..][i - 1];
      if |ids| != 1 then Failure(AmbiguousQuery)
      else
        MarkAllAppend(lab, ids, SelectedIds(stats, areas[1..]));
        MarkQueries(MarkAll(lab, ids), stats, areas[1..])
  }

  /** Marking two lists one after the other is marking their concatenation. */
  lemma {:induction false} MarkAllAppend(lab: LabelGrid, first: seq<nat>, second: seq<nat>)
    ensures MarkAll(MarkAll(lab, first), second) == MarkAll(lab, first + second)
    decreases |first|
  {
    if first == [] {
      assert first + second == second;
    } else {
      assert (first + second)[0] == first[0];
      assert (first + second)[1..] == first[1..] + second;
      assert MarkAll(lab, first) == MarkAll(Mark(lab, first[0]), first[1..]);
      assert MarkAll(lab, first + second) == MarkAll(Mark(lab, first[0]), first[1..] + second);
      MarkAllAppend(Mark(lab, first[0]), first[1..], second);
    }
  }

  /** Two foreground regions share an area that the loop selects. */
  predicate SharedTopArea(stats: StatsTable, top: seq<int>)
  {
    exists j, k :: 1 <= j < k < |stats| && stats[j].area == stats[k].area && stats[j].area in top
  }

  /** Two distinct foreground regions have AREA a. */
  predicate TwoCarry(stats: StatsTable, a: int)
  {
    exists j, k :: 1 <= j < k < |stats| && stats[j].area == a && stats[k].area == a
  }

  /** For an area some foreground region carries, the query finds other than
      one id exactly when two foreground regions carry it. */
  lemma QueryNotSingle(stats: StatsTable, a: int)
    requires exists j :: 1 <= j < |stats| && stats[j].area == a
    ensures |RegionsWithArea(stats, a, 1)| != 1 <==> TwoCarry(stats, a)
  {
    var ids := RegionsWithArea(stats, a, 1);
    var j :| 1 <= j < |stats| && stats[j].area == a;
    assert j in ids;
    if |ids| != 1 {
      TwoIdsShare(stats, a, ids);
    }
    TwoCarriersTwoIds(stats, a);
  }

  /** Two regions with AREA a are two entries of the query. */
  lemma TwoCarriersTwoIds(stats: StatsTable, a: int)
    ensures TwoCarry(stats, a) ==> |RegionsWithArea(stats, a, 1)| >= 2
  {
    if TwoCarry(stats, a) {
      var ids := RegionsWithArea(stats, a, 1);
      var j, k :| 1 <= j < k < |stats| && stats[j].area == a && stats[k].area == a;
      assert j in ids && k in ids;
      var p :| 0 <= p < |ids| && ids[p] == j;
      var q :| 0 <= q < |ids| && ids[q] == k;
      assert p != q;
    }
  }

  /** Two entries of the query are two distinct regions with that area. */
  lemma TwoIdsShare(stats: StatsTable, a: int, ids: seq<nat>)
    requires ids == RegionsWithArea(stats, a, 1) && |ids| >= 2
    ensures TwoCarry(stats, a)
  {
    var p, q := ids[0], ids[1];
    assert p != q;
    assert p in ids && q in ids;
    if p < q {
      assert stats[p].area == a && stats[q].area == a;
    } else {
      assert stats[q].area == a && stats[p].area == a;
    }
  }

  /** Every selected area is the AREA of some foreground region. */
  lemma TopAreasCarried(stats: StatsTable, nReg: int)
    requires |stats| >= 1 && nReg <= |stats| - 1
    ensures forall i :: 0 <= i < |TopAreas(stats, nReg)| ==>
      exists j :: 1 <= j < |stats| && stats[j].area == TopAreas(stats, nReg)[i]
  {
    var fg := ForegroundAreas(stats);
    var sorted := SortDesc(fg);
    var top := TopAreas(stats, nReg);
    forall i | 0 <= i < |top|
      ensures exists j :: 1 <= j < |stats| && stats[j].area == top[i]
    {
      assert top[i] == sorted[i];
      assert sorted[i] in multiset(sorted);
      assert top[i] in fg;
      var m :| 0 <= m < |fg| && fg[m] == top[i];
      assert stats[m + 1].area == top[i];
    }
  }

  /** The marking loop fails exactly when some selected area is shared. */
  lemma MarkQueriesFailIffShared(lab: LabelGrid, stats: StatsTable, nReg: int)
    requires |stats| >= 1 && nReg <= |stats| - 1
    ensures MarkQueries(lab, stats, TopAreas(stats, nReg)).Failure? <==> SharedTopArea(stats, TopAreas(stats, nReg))
  {
    var top := TopAreas(stats, nReg);
    TopAreasCarried(stats, nReg);
    if MarkQueries(lab, stats, top).Failure? {
      var i :| 0 <= i < |top| && |RegionsWithArea(stats, top[i], 1)| != 1;
      QueryNotSingle(stats, top[i]);
      var j, k :| 1 <= j < k < |stats| && stats[j].area == top[i] && stats[k].area == top[i];
      assert stats[j].area in top;
    }
    if SharedTopArea(stats, top) {
      var j, k :| 1 <= j < k < |stats| && stats[j].area == stats[k].area && stats[j].area in top;
      var i :| 0 <= i < |top| && top[i] == stats[j].area;
      QueryNotSingle(stats, top[i]);
      assert TwoCarry(stats, top[i]);
    }
  }

  /** One slice as select_greater_connected_regions computes it: when a
      selected area is shared by several regions the comparison at line 91
      fails; otherwise the result is the membership reading of SelectSlice. */
  function SelectSliceAsWritten(a: SliceAnalysis, nReg: int): (r: Result<Slice, SelectError>)
    requires |a.stats| >= 1
    ensures r.Failure? <==> |a.stats| - 1 >= nReg && SharedTopArea(a.stats, TopAreas(a.stats, nReg))
    ensures r.Success? ==> r.value == SelectSlice(a, nReg)
  {
    if |a.stats| - 1 > nReg - 1 then
      MarkQueriesFailIffShared(a.labels, a.stats, nReg);
      match MarkQueries(a.labels, a.stats, TopAreas(a.stats, nReg))
      case Success(lab) => Success(KeepMarked(lab))
      case Failure(e) => Failure(e)
    else
      Success(ClearAll(a.labels))
  }

  /** Two separated regions of AREA 1 and n_reg = 1: the query returns both
      ids, so the loop as written fails. */
  lemma TieFailsAsWritten()
    ensures SelectSliceAsWritten(TieExample(), 1) == Failure(AmbiguousQuery)
  {
    var a := TieExample();
    TieExampleTop();
    assert a.stats[1].area == a.stats[2].area && a.stats[1].area in [1];
    assert SharedTopArea(a.stats, TopAreas(a.stats, 1));
  }

  /** On the same slice the membership reading keeps both tied regions. */
  lemma TieKeptByMembership()
    ensures SelectSlice(TieExample(), 1) == [[255, 0, 255]]
  {
    TiedPairKept(TieExample());
  }

  /** Any slice labelled [[1, 0, 2]] whose two regions have the same area. */
  lemma TiedPairKept(a: SliceAnalysis)
    requires a.labels == [[1, 0, 2]] && |a.stats| == 3
    requires a.stats[1].area == a.stats[2].area
    ensures SelectSlice(a, 1) == [[255, 0, 255]]
  {
    TiedPairPixels(a);
    OneRowOfThree(SelectSlice(a, 1), 255, 0, 255);
  }

  /** A one-row grid of three pixels is determined by its pixels. */
  lemma OneRowOfThree(g: Slice, p: Voxel, q: Voxel, s: Voxel)
    requires |g| == 1 && |g[0]| == 3 && g[0][0] == p && g[0][1] == q && g[0][2] == s
    ensures g == [[p, q, s]]
  {
    assert g[0] == [p, q, s];
  }

  lemma TiedPairPixels(a: SliceAnalysis)
    requires a.labels == [[1, 0, 2]] && |a.stats| == 3
    requires a.stats[1].area == a.stats[2].area
    ensures |SelectSlice(a, 1)| == 1 && |SelectSlice(a, 1)[0]| == 3
    ensures SelectSlice(a, 1)[0][0] == 255 && SelectSlice(a, 1)[0][2] == 255
    ensures SelectSlice(a, 1)[0][1] == 0
  {
    TiedPairUnranked(a.stats);
    KeptIffAmongLargest(a, 1, 0, 0);
    KeptIffAmongLargest(a, 1, 0, 1);
    KeptIffAmongLargest(a, 1, 0, 2);
  }

  /** Neither of two equal regions outranks the other. */
  lemma TiedPairUnranked(stats: StatsTable)
    requires |stats| == 3 && stats[1].area == stats[2].area
    ensures Rank(stats, 1) == 0 && Rank(stats, 2) == 0
  {
    var fg := ForegroundAreas(stats);
    var area := stats[1].area;
    assert fg == [area, area];
    assert fg[1..] == [area] && fg[1..][1..] == [];
    assert CountGreater([area], area) == 0;
  }

  /** Both regions of the tie example have the one selected area. */
  lemma TieExampleTop()
    ensures TopAreas(TieExample().stats, 1) == [1]
  {
    var fg := ForegroundAreas(TieExample().stats);
    assert fg == [1, 1];
    assert SortDesc([1]) == [1];
    assert SortDesc(fg) == Insert(1, [1]) == [1, 1];
  }

  /** Labels [[1, 0, 2]]: two foreground regions of AREA 1, kept apart by a
      background pixel, so an analyzer can return this labelling. */
  function TieExample(): (a: SliceAnalysis)
    ensures Consistent(a)
    ensures TouchingShareLabel(a.labels)
  {
    var a := SliceAnalysis([[1, 0, 2]], [Stats(1, 0, 1, 1, 1), Stats(0, 0, 1, 1, 1), Stats(2, 0, 1, 1, 1)]);
    assert CountLabel(a.labels, 0) == 1 && CountLabel(a.labels, 1) == 1 && CountLabel(a.labels, 2) == 1;
    a
  }

  /** Without shared selected areas the loop as written succeeds and keeps,
      for ids below 255, exactly the regions fewer than n_reg regions outrank. */
  lemma AsWrittenKeptIffAmongLargest(a: SliceAnalysis, nReg: int, y: int, x: int)
    requires Labelled(a) && |a.stats| <= 255 && nReg <= |a.stats| - 1
    requires !SharedTopArea(a.stats, TopAreas(a.stats, nReg))
    requires 0 <= y < |a.labels| && 0 <= x < |a.labels[y]|
    ensures SelectSliceAsWritten(a, nReg).Success?
    ensures SelectSliceAsWritten(a, nReg).value[y][x] == 255 <==>
      a.labels[y][x] != 0 && Rank(a.stats, a.labels[y][x]) < nReg
  {
    KeptIffAmongLargest(a, nReg, y, x);
  }

  /** Number of foreground regions whose AREA is strictly larger than region id's. */
  function Rank(stats: StatsTable, id: nat): nat
    requires 1 <= id < |stats|
  {
    CountGreater(ForegroundAreas(stats), stats[id].area)
  }

  /** The selection by sorted position agrees with the rank reference: an area
      is among the first n_reg sorted areas exactly when fewer than n_reg
      foreground regions are larger. */
  lemma InTopAreasIffRankBelow(stats: StatsTable, nReg: int, id: nat)
    requires 1 <= id < |stats| && nReg <= |stats| - 1
    ensures stats[id].area in TopAreas(stats, nReg) <==> Rank(stats, id) < nReg
  {
    var fg := ForegroundAreas(stats);
    var sorted := SortDesc(fg);
    assert stats[id].area == fg[id - 1];
    assert stats[id].area in multiset(sorted);
    InPrefixIffRankBelow(sorted, nReg, stats[id].area);
    SortKeepsCount(fg, stats[id].area);
  }

  /** When ids stay below 255 (no 8-bit wrap, no collision with the mark) and
      the slice has at least n_reg foreground regions, a pixel is 255 exactly
      when it is foreground and fewer than n_reg regions are larger than its
      own. In this reading regions of equal area share their fate. */
  lemma KeptIffAmongLargest(a: SliceAnalysis, nReg: int, y: int, x: int)
    requires Labelled(a) && |a.stats| <= 255 && nReg <= |a.stats| - 1
    requires 0 <= y < |a.labels| && 0 <= x < |a.labels[y]|
    ensures SelectSlice(a, nReg)[y][x] == 255 <==>
      a.labels[y][x] != 0 && Rank(a.stats, a.labels[y][x]) < nReg
  {
    var l := a.labels[y][x];
    var top := TopAreas(a.stats, nReg);
    assert l < |a.stats| <= 255;
    assert SelectSlice(a, nReg)[y][x] == 255 <==> HitBySelection(a.stats, top, l);
    SmallIdHit(a.stats, top, l);
    if l != 0 {
      InTopAreasIffRankBelow(a.stats, nReg, l);
    }
  }

  /** Below 256 the wrap is the identity, so the hit is by the region's own id. */
  lemma SmallIdHit(stats: StatsTable, top: seq<int>, l: nat)
    requires l < |stats| <= 256
    ensures HitBySelection(stats, top, l) <==> l != 0 && stats[l].area in top
  {
    if HitBySelection(stats, top, l) {
      var id :| 1 <= id < |stats| && stats[id].area in top && l == id % 256;
      assert id % 256 == id;
    }
    if l != 0 && stats[l].area in top {
      assert l % 256 == l;
    }
  }

  /** A region of maximal area is kept whenever at least one region is asked for. */
  lemma LargestRegionKept(a: SliceAnalysis, nReg: int, y: int, x: int)
    requires Labelled(a) && |a.stats| <= 255 && 1 <= nReg <= |a.stats| - 1
    requires 0 <= y < |a.labels| && 0 <= x < |a.labels[y]| && a.labels[y][x] != 0
    requires forall j :: 1 <= j < |a.stats| ==> a.stats[j].area <= a.stats[a.labels[y][x]].area
    ensures SelectSlice(a, nReg)[y][x] == 255
  {
    var fg := ForegroundAreas(a.stats);
    NoneGreater(fg, a.stats[a.labels[y][x]].area);
    KeptIffAmongLargest(a, nReg, y, x);
  }
}

=== FILE: sorting.dfy ===
/** Descending sort of region areas and the rank of a value among them: the
    reference used to characterise which areas the top-N selection keeps. */
module Sorting {

  predicate SortedDesc(s: seq<int>)
  {
    forall i, j :: 0 <= i < j < |s| ==> s[i] >= s[j]
  }

  /** Number of elements of `s` strictly greater than `a`. */
  function CountGreater(s: seq<int>, a: int): nat
  {
    if s == [] then 0 else (if s[0] > a then 1 else 0) + CountGreater(s[1..], a)
  }

  /** Putting a head no smaller than every element in front keeps the order. */
  lemma ConsSorted(h: int, t: seq<int>)
    requires SortedDesc(t) && forall i :: 0 <= i < |t| ==> h >= t[i]
    ensures SortedDesc([h] + t)
  {
    forall i, j | 0 <= i < j < |[h] + t|
      ensures ([h] + t)[i] >= ([h] + t)[j]
    {
      if i > 0 {
        assert ([h] + t)[i] == t[i - 1];
      }
      assert ([h] + t)[j] == t[j - 1];
    }
  }

  function Insert(x: int, s: seq<int>): (r: seq<int>)
    requires SortedDesc(s)
    ensures SortedDesc(r)
    ensures multiset(r) == multiset(s) + multiset{x}
  {
    if s == [] || x >= s[0] then
      assert ([x] + s)[1..] == s;
      ConsSorted(x, s);
      [x] + s
    else
      var rest := Insert(x, s[1..]);
      forall i | 0 <= i < |rest|
        ensures s[0] >= rest[i]
      {
        assert rest[i] in multiset(rest);
        assert rest[i] == x || rest[i] in multiset(s[1..]);
      }
      ConsSorted(s[0], rest);
      assert s == [s[0]] + s[1..];
      assert multiset([s[0]] + rest) == multiset{s[0]} + multiset(rest);
      [s[0]] + rest
  }

  /** Descending insertion sort (pandas sort_values with ascending=False; the
      order among equal areas does not matter to its callers). */
  function SortDesc(s: seq<int>): (r: seq<int>)
    ensures SortedDesc(r)
    ensures multiset(r) == multiset(s)
    ensures |r| == |s|
  {
    if s == [] then []
    else
      assert s == [s[0]] + s[1..];
      Insert(s[0], SortDesc(s[1..]))
  }

  lemma {:induction false} InsertCount(x: int, s: seq<int>, a: int)
    requires SortedDesc(s)
    ensures CountGreater(Insert(x, s), a) == CountGreater(s, a) + (if x > a then 1 else 0)
    decreases |s|
  {
    if s == [] || x >= s[0] {
      assert ([x] + s)[1..] == s;
    } else {
      InsertCount(x, s[1..], a);
      var rest := Insert(x, s[1..]);
      assert ([s[0]] + rest)[1..] == rest;
    }
  }

  /** Sorting does not change how many elements exceed a given value. */
  lemma {:induction false} SortKeepsCount(s: seq<int>, a: int)
    ensures CountGreater(SortDesc(s), a) == CountGreater(s, a)
    decreases |s|
  {
    if s != [] {
      SortKeepsCount(s[1..], a);
      InsertCount(s[0], SortDesc(s[1..]), a);
    }
  }

  lemma {:induction false} NoneGreater(s: seq<int>, a: int)
    requires forall i :: 0 <= i < |s| ==> s[i] <= a
    ensures CountGreater(s, a) == 0
    decreases |s|
  {
    if s != [] {
      NoneGreater(s[1..], a);
    }
  }

  /** In a descending sequence, a value occurs among the first n elements
      exactly when fewer than n elements exceed it. */
  lemma {:induction false} InPrefixIffRankBelow(s: seq<int>, n: int, a: int)
    requires SortedDesc(s) && a in s && n <= |s|
    ensures a in s[..if n < 0 then 0 else n] <==> CountGreater(s, a) < n
    decreases |s|
  {
    if s[0] > a {
      assert a in s[1..] by {
        var k :| 0 <= k < |s| && s[k] == a;
        assert k > 0 && s[1..][k - 1] == a;
      }
      InPrefixIffRankBelow(s[1..], n - 1, a);
      if n >= 1 {
        assert s[..n] == [s[0]] + s[1..][..n - 1];
      }
    } else {
      assert s[0] == a by {
        var k :| 0 <= k < |s| && s[k] == a;
        assert s[0] >= s[k];
      }
      NoneGreater(s[1..], a);
      if n >= 1 {
        assert s[..n][0] == a;
      }
    }
  }
}

=== FILE: spots.dfy ===
/** Spot removal (remove_spots): per slice, erase every region whose AREA is
    strictly below a threshold, then collapse the survivors to the value 1. */
module SpotRemoval {
  import opened Grids
  import opened Regions

  /** Ids whose AREA is below `area`, from row `from` on, in row order (the
      index of the stats query `AREA < area`; it may include the background). */
  function SmallRegions(stats: StatsTable, area: int, from: nat): (ids: seq<nat>)
    ensures forall id :: id in ids <==> from <= id < |stats| && stats[id].area < area
    decreases |stats| - from
  {
    if from >= |stats| then []
    else (if stats[from].area < area then [from] else []) + SmallRegions(stats, area, from + 1)
  }

  /** Every pixel carrying the given id becomes background (0). */
  function Erase(lab: LabelGrid, id: nat): (r: LabelGrid)
    ensures SameShape(r, lab)
    ensures forall y, x :: 0 <= y < |lab| && 0 <= x < |lab[y]| ==>
      r[y][x] == if lab[y][x] == id then 0 else lab[y][x]
  {
    seq(|lab|, y requires 0 <= y < |lab| =>
      seq(|lab[y]|, x requires 0 <= x < |lab[y]| => if lab[y][x] == id then 0 else lab[y][x]))
  }

  /** Erase the listed regions one after the other. */
  function EraseAll(lab: LabelGrid, ids: seq<nat>): (r: LabelGrid)
    ensures SameShape(r, lab)
    ensures forall y, x :: 0 <= y < |lab| && 0 <= x < |lab[y]| ==>
      r[y][x] == if lab[y][x] in ids then 0 else lab[y][x]
    decreases |ids|
  {
    if ids == [] then lab else EraseAll(Erase(lab, ids[0]), ids[1..])
  }

  /** Every foreground pixel becomes 1 and every background pixel 0. */
  function Binarize(lab: LabelGrid): (r: Slice)
    ensures SameShape(r, lab)
    ensures forall y, x :: 0 <= y < |lab| && 0 <= x < |lab[y]| ==>
      r[y][x] == if lab[y][x] != 0 then 1 else 0
  {
    seq(|lab|, y requires 0 <= y < |lab| =>
      seq(|lab[y]|, x requires 0 <= x < |lab[y]| => if lab[y][x] != 0 then 1 as Voxel else 0))
  }

  /** One slice: a pixel is 1 exactly when it is foreground and its region is
      not listed with AREA below the threshold; everything else is 0. */
  function RemoveSpotsSlice(a: SliceAnalysis, area: int): (r: Slice)
    ensures SameShape(r, a.labels)
    ensures forall y, x :: 0 <= y < |a.labels| && 0 <= x < |a.labels[y]| ==>
      && (r[y][x] == 0 || r[y][x] == 1)
      && (r[y][x] == 1 <==>
            a.labels[y][x] != 0 && !(a.labels[y][x] < |a.stats| && a.stats[a.labels[y][x]].area < area))
  {
    Binarize(EraseAll(a.labels, SmallRegions(a.stats, area, 0)))
  }

  /** The whole stack, slice by slice. */
  function RemoveSpots(analysis: seq<SliceAnalysis>, area: int): (r: Volume)
    ensures |r| == |analysis|
    ensures forall i :: 0 <= i < |r| ==> r[i] == RemoveSpotsSlice(analysis[i], area)
  {
    seq(|analysis|, i requires 0 <= i < |analysis| => RemoveSpotsSlice(analysis[i], area))
  }

  /** With a consistent analysis, a pixel survives exactly when its region is
      foreground and has at least `area` pixels; the output foreground is a
      subset of the input foreground. */
  lemma SurvivorsAreLargeRegions(a: SliceAnalysis, area: int, y: int, x: int)
    requires Consistent(a)
    requires 0 <= y < |a.labels| && 0 <= x < |a.labels[y]|
    ensures RemoveSpotsSlice(a, area)[y][x] == 1 <==>
      a.labels[y][x] != 0 && CountLabel(a.labels, a.labels[y][x]) >= area
    ensures RemoveSpotsSlice(a, area)[y][x] == 1 ==> a.labels[y][x] != 0
  {
  }

  /** A threshold of zero or less erases nothing: the output is the input
      foreground normalised to 1. */
  lemma NonPositiveThresholdKeepsForeground(a: SliceAnalysis, area: int)
    requires Consistent(a) && area <= 0
    ensures forall y, x :: 0 <= y < |a.labels| && 0 <= x < |a.labels[y]| ==>
      RemoveSpotsSlice(a, area)[y][x] == if a.labels[y][x] != 0 then 1 else 0
  {
  }
}
